=== FILE: README.md ===
# Ear-clipping polygon triangulation, modelled in Dafny

This project models the triangulation core of a small Rust program that fills
polygons by cutting them into triangles. The core has three parts:

- `is_convex` is an orientation test. A corner (prev, curr, next) is convex only
  when the cross product of (curr - prev) and (next - prev) is strictly negative.
- `point_in_triangle` is a barycentric membership test. It computes `s`, `t` and
  `u = 1 - s - t` and accepts a point when all three are non-negative. In exact
  arithmetic the triangle's edges and corners therefore count as inside; the
  source's `f32` rounding can move a point on an edge to either side.
- `ear_clipping` triangulates. It keeps a private copy of the vertex list. Each
  pass scans the indices from 0 upwards and takes the first ear: a vertex whose
  corner with its cyclic neighbours is convex and whose triangle contains no
  other vertex of the current list. It emits that triangle as
  (prev, curr, next), removes `curr`, and starts the next pass. It stops when
  fewer than three vertices remain. When a pass finds no ear, it prints a
  warning and returns the triangles it has so far.

Files:

- `geometry.dfy` (module `Geometry`): the `Point` type with unbounded integer
  coordinates, `NewVertex`, `Cross`, `IsConvex`, and `PointInTriangle`.
  `PointInTriangle` computes `s`, `t` and `u` over `real`, the way the source
  does. Lemmas relate it to a division-free side test (`InsideBySides`).
- `ear_clipping.dfy` (module `EarClipping`): `Triangulation` is the reference
  definition of a whole run. The methods `HasVertexInside` (the inner vertex
  scan), `FindFirstEar` (one pass) and `EarClip` (the outer loop) are the
  triangulator's loops. Each is proved to compute what the reference says.
  Lemmas state what every run guarantees.
- `samples.dfy` (module `Samples`): concrete runs. These cover the demo's
  triangle sample, a 4 x 4 square listed in each winding, a list with a
  vertex on an ear candidate's edge, and an L-shaped hexagon listed
  counter-clockwise.

Modelling decisions:

- Coordinates are unbounded `int`, and every computation on them is exact: the
  cross product over `int`, the barycentric weights over `real`. The source
  converts `i32` image coordinates to `f32`. Its cross product agrees with the
  exact one only while the values involved stay below 2^24, which holds for
  coordinates within about +-2048. Its weights are rounded; see "Left out".
- The printed warning becomes the `stuck` result of `EarClip`.
- `PointInTriangle` requires a non-zero doubled area, because the source divides
  by it. `TwiceAreaIsCross` shows that this area is the cross product of the
  convexity test. The triangulator only calls the test under that guard, so
  the precondition is discharged at every call and no division by zero occurs.
- `EarClip` removes the ear after the pass's scan loop has ended, not inside
  it. The result is the same, because the source breaks out of the scan right
  after the removal.
- Dafny sequences are values, so `EarClip` cannot change its caller's list. The
  source gets the same guarantee by working on a clone.
- Winding convention: convex means a clockwise turn in the upward-y frame that
  `Vertex::new` produces. A convex polygon listed counter-clockwise in that
  frame has no convex corner, so the run stops at once with no triangle
  (`CounterClockwiseSquareIsStuck`). The same polygon listed clockwise is
  triangulated (`ClockwiseSquareHasTwoTriangles`). In a non-convex polygon
  listed counter-clockwise, the reflex corners turn clockwise and so count as
  convex. The run can then emit triangles that lie outside the polygon before
  it gives up (`LHexagonClipsNotchThenGivesUp`).
  `FlipReversesOrientation` shows that the y-flip in `Vertex::new` reverses
  every orientation. Hence a list that is counter-clockwise in image
  coordinates is clockwise after conversion.

## Model

| member | source | states |
|---|---|---|
| Geometry.NewVertex | src/main.rs:10-15 | transcribes line 13: x is kept and y becomes `height - y`, so y is measured upwards from the bottom row |
| Geometry.NewVertexRoundTrip | src/main.rs:10-15 | converting a vertex back with the same height gives the original image coordinates, so no two image points become the same vertex |
| Geometry.Cross | src/main.rs:18-19 | the orientation value of `is_convex`: the cross product of (curr - prev) and (next - prev) on exact integer coordinates |
| Geometry.IsConvex | src/main.rs:18-21 | a corner is convex exactly when its cross product is strictly negative; zero (collinear) and positive values are not convex |
| Geometry.TwiceArea | src/main.rs:24 | twice the signed area that `point_in_triangle` computes from the three corners, before the factor 0.5 |
| Geometry.WeightSNumerator | src/main.rs:25 | the numerator that `s` multiplies by `1 / (2 * area)`, depending on the point, `a` and `c` |
| Geometry.WeightTNumerator | src/main.rs:26 | the numerator that `t` multiplies by `1 / (2 * area)`, depending on the point, `a` and `b` |
| Geometry.WeightsNonNegative | src/main.rs:24-28 | from the doubled area and the two numerators it forms `area`, `s`, `t` and `u = 1 - s - t` over the reals and accepts when none of the three weights is negative |
| Geometry.PointInTriangle | src/main.rs:23-29 | the membership test: the weights of the point with respect to the triangle are all non-negative; defined only for a non-zero doubled area, the divisor of lines 25-26 |
| EarClipping.EarTriangle | src/main.rs:40-42 | the triangle of corner `i` in the working list: its cyclic predecessor, the vertex itself and its cyclic successor |
| EarClipping.IsOtherIndex | src/main.rs:47-48 | the indices the inner scan examines: every index except `i` and its two cyclic neighbours |
| EarClipping.ContainsNoOther | src/main.rs:46-54 | no examined vertex is accepted by the membership test for the corner's triangle, which is the case in which `any_inside` stays false |
| EarClipping.IsEar | src/main.rs:44-54 | a vertex is clipped when its corner is convex and its triangle contains no other vertex |
| EarClipping.Triangulation | src/main.rs:31-68 | the whole run as a recursive definition: fewer than three vertices end it normally; no ear ends it with the warning; otherwise the first ear's triangle is emitted and the run continues on the list without that vertex |
| Geometry.FlipReversesOrientation | src/main.rs:10-21 | converting three image points with `Vertex::new` negates their cross product, so the y-flip reverses which corners count as convex |
| Geometry.TwiceAreaIsCross | src/main.rs:18-24 | the doubled area that `point_in_triangle` divides by equals the cross product of `is_convex`; a convex triple therefore never gives a zero divisor |
| Geometry.CollinearIsNotConvex | src/main.rs:18-21 | a collinear triple (cross product 0) is never convex, because the test is strict |
| Geometry.ConvexityUnderRotation | src/main.rs:18-21 | the cross product is unchanged when the triple is rotated, and reversing a convex triple makes it non-convex |
| Geometry.WeightsAreSubAreas | src/main.rs:24-27 | the numerators of `s` and `t`, and the doubled area minus both, are the signed areas of the sub-triangles with one corner replaced by the point |
| Geometry.WeightSigns | src/main.rs:24-28 | `s`, `t` and `u = 1 - s - t` are all non-negative exactly when their numerators are each zero or share the sign of the doubled area |
| Geometry.PointInTriangleBySides | src/main.rs:23-29 | on every triangle of non-zero area, the barycentric test accepts a point exactly when each sub-triangle is degenerate or has the triangle's orientation (both directions) |
| Geometry.CornersAreInside | src/main.rs:23-29 | each corner of a triangle is accepted by its own membership test |
| Geometry.SidesRotate | src/main.rs:23-29 | the division-free side test gives the same answer when the triangle's corners are rotated |
| Geometry.PointInTriangleRotates | src/main.rs:23-29 | rotating the corners keeps the doubled area non-zero and does not change the membership test's answer, although its formula singles out the first corner |
| Geometry.EdgePointsAreInside | src/main.rs:23-29 | every point of the closed edge a-b (prev-curr in the triangulator) is accepted by the membership test |
| Geometry.SecondEdgePointsAreInside | src/main.rs:23-29 | every point of the closed edge b-c (curr-next in the triangulator) is accepted by the membership test |
| Geometry.ThirdEdgePointsAreInside | src/main.rs:23-29 | every point of the closed edge c-a (next-prev in the triangulator) is accepted by the membership test |
| EarClipping.PrevIndex | src/main.rs:40 | `(i + n - 1) % n` is a valid index: `n - 1` for `i = 0`, otherwise `i - 1` |
| EarClipping.NextIndex | src/main.rs:42 | `(i + 1) % n` is a valid index: `0` for the last index, otherwise `i + 1` |
| EarClipping.NeighboursAreInverse | src/main.rs:40-48 | stepping to the previous and then the next neighbour returns to `i`, and on three or more vertices `i` and its two neighbours are pairwise distinct |
| EarClipping.RemoveAt | src/main.rs:57 | removal deletes exactly index `i`; earlier elements stay in place and later ones shift down by one, in order |
| EarClipping.RemoveAtMultiset | src/main.rs:57 | removal loses exactly the removed vertex, counted with multiplicity, and introduces nothing new |
| EarClipping.IsEarBySides | src/main.rs:44-54 | a vertex is an ear exactly when its corner is convex and no other vertex passes the division-free side test for its triangle (both directions) |
| EarClipping.FirstEarFrom | src/main.rs:39-62 | the result is the smallest ear index at or after `from`, and it is absent only when no index from there on is an ear |
| EarClipping.FirstEar | src/main.rs:39-62 | the ear a pass picks is the smallest ear index, and there is none only when no index is an ear |
| EarClipping.HasVertexInside | src/main.rs:46-53 | the inner scan reports a hit exactly when some vertex other than `i` and its two neighbours lies in or on the convex corner's triangle |
| EarClipping.FindFirstEar | src/main.rs:39-62 | one pass finds an ear exactly when the list has one, and it returns the first ear index |
| EarClipping.EarClip | src/main.rs:31-68 | the triangulator's loops terminate, because each clip shortens the working list, and return the reference run's triangles and give-up flag; the run has at most n - 2 triangles, and exactly n - 2 when it does not give up |
| EarClipping.CountConserved | src/main.rs:33-59 | the number of emitted triangles plus the number of remaining vertices equals the input's vertex count |
| EarClipping.HowARunEnds | src/main.rs:35-66 | a run that gives up leaves three or more vertices, none of them an ear; any other run leaves exactly two vertices, or an input of fewer than three untouched |
| EarClipping.TriangleCount | src/main.rs:35-65 | an input of fewer than three vertices yields no triangle; any input yields at most n - 2; a run that does not give up yields exactly n - 2 |
| EarClipping.VerticesConserved | src/main.rs:56-57 | the middle corners of the triangles and the remaining vertices together are the input vertices, counted with multiplicity |
| EarClipping.CornersAreInputVertices | src/main.rs:40-56 | every corner of every emitted triangle, and every remaining vertex, is an input vertex |
| EarClipping.EmittedTrianglesAreConvex | src/main.rs:44-56 | every emitted triangle passes the convexity test |
| EarClipping.EachTriangleIsTheFirstEar | src/main.rs:39-59 | the k-th triangle is the triangle of the first ear of the k-th working list; that list has n - k >= 3 vertices, and the next list is it without that ear vertex |
| EarClipping.ThreeVertices | src/main.rs:39-56 | `[v0, v1, v2]` yields exactly `[(v2, v0, v1)]` when that triple is convex; otherwise it yields nothing and the run gives up |
| Samples.SampleTriangleIsOneEar | src/main.rs:96-98 | the demo's triangle sample, converted with `Vertex::new` for a 600-pixel-high image, yields exactly one triangle and finishes |
| Samples.QuadrilateralEar | src/main.rs:44-54 | on a four-vertex list, a convex corner is an ear as soon as the single vertex that is not one of its triangle's corners fails the side test |
| Samples.OtherVertexInside | src/main.rs:44-54 | a convex corner is not an ear when some other vertex passes the side test for its triangle |
| Samples.ClockwiseSquareCornerIsEar | src/main.rs:40-54 | index 0 of a clockwise square is an ear whose triangle is (4, 0), (0, 0), (0, 4) |
| Samples.ClockwiseSquareFirstEar | src/main.rs:39-59 | the first pass over a clockwise square picks index 0, whose triangle leaves out the opposite corner |
| Samples.ClockwiseSquareHasTwoTriangles | src/main.rs:31-68 | a clockwise 4 x 4 square is cut into two given triangles along a diagonal |
| Samples.EdgeVertexInsideCorner | src/main.rs:44-54 | in `[(2, 3), (2, 0), (2, 1), (0, 2)]` the convex corner at index 0 is not an ear, because (2, 1) lies on its curr-next edge and counts as inside |
| Samples.EdgeVertexMiddleCorners | src/main.rs:44 | in the same list the corners at indices 1 and 2 are not convex, so neither is an ear |
| Samples.EdgeVertexListLastIsEar | src/main.rs:44-54 | in the same list index 3 is an ear |
| Samples.FirstEarOfFourIsLast | src/main.rs:39-59 | on any four-vertex list whose first three corners are not ears and whose last is, the pass picks index 3 |
| Samples.EdgeVertexBlocksEar | src/main.rs:39-59 | the first pass over that list clips index 3, because the vertex on the edge blocks index 0 |
| Samples.CounterClockwiseSquareIsStuck | src/main.rs:44-66 | the same square listed counter-clockwise has no ear, so the run gives up with no triangle |
| Samples.NoConvexCornerNoEar | src/main.rs:39-59 | on any list with no convex corner the pass finds no ear |
| Samples.LHexagonFirstCorners | src/main.rs:44 | in the counter-clockwise L-hexagon `[(0, 0), (2, 0), (2, 1), (1, 1), (1, 2), (0, 2)]` the corners at indices 0, 1 and 2 are not convex |
| Samples.LHexagonNotchIsEar | src/main.rs:44-54 | the hexagon's reflex corner at index 3, (2, 1), (1, 1), (1, 2), has cross product -1, so it counts as convex, and it is an ear |
| Samples.LHexagonFirstEar | src/main.rs:39-59 | the first pass over the hexagon picks the reflex corner at index 3 |
| Samples.LPentagonHasNoEar | src/main.rs:44-66 | the pentagon left after that clip has only counter-clockwise corners, so it has no ear |
| Samples.LHexagonClipsNotchThenGivesUp | src/main.rs:31-68 | the run on the hexagon emits one triangle, which fills the notch outside the polygon, and then gives up with the pentagon left over |

## Left out

- `main`: the hard-coded sample polygons, image creation, triangle drawing and
  PNG export are I/O and calls into the raylib library. Only the triangle
  sample appears, as a concrete run.
- `draw_polygon_outline`: this only draws lines through raylib.
- The `println!` warning on early exit is modelled as the `stuck` flag, not as
  output.
- `f32` arithmetic: the model computes exactly, so rounding on line 19 (the
  cross product, exact only for coordinates within about +-2048) and on lines
  24-27 (area, weights and `u = 1 - s - t`) is not modelled. With rounding, `u`
  can come out slightly negative for a point on a triangle's curr-next edge
  (p = (2, 1) on the triangle (0, 2), (2, 3), (2, 0)), so the source may not
  count that point as inside where the model does. A run can then differ: on
  `[(2, 3), (2, 0), (2, 1), (0, 2)]`, if rounding rejects (2, 1), the source
  clips index 0 first, while the model clips index 3
  (`Samples.EdgeVertexBlocksEar`). The demo's sample
  polygons do not hit this case.
- Geometry.EdgePointsAreInside, Geometry.SecondEdgePointsAreInside and
  Geometry.ThirdEdgePointsAreInside: hold for the exact model only. Under `f32`
  rounding an edge point can be rejected, as described above.
- Geometry.NewVertex: `height - y` on line 13 is an `i32` subtraction that can
  overflow (a panic in debug builds, wrap-around in release builds). The model
  subtracts unbounded integers.
- Geometry.PointInTriangle: the `f32` result for a zero-area triangle
  (infinities and NaN) is not modelled. The model requires a non-zero doubled
  area instead, and the triangulator never calls the test on such a triangle.
- Area conservation and non-overlap of the output triangles: the code never
  checks them, and they can fail for a list with the other winding (the
  L-hexagon sample emits a triangle outside its polygon).
- `usize` overflow in `(i + n - 1) % n`: it cannot happen for any list that fits
  in memory, so indices are unbounded naturals.

=== FILE: ear_clipping.dfy ===
/** Ear-clipping triangulation of a polygon given as an ordered vertex list.

    The triangulator works on a private copy of the vertex list. Each pass scans
    the indices from 0 upwards for the first "ear": a vertex whose corner with
    its two cyclic neighbours is convex and whose triangle contains no other
    vertex of the current list. It emits that triangle (previous, current, next),
    removes the current vertex, and starts the next pass. It stops once fewer
    than three vertices are left, or gives up when a pass finds no ear.

    `Triangulation` is the reference definition of the whole run, and the
    methods `HasVertexInside`, `FindFirstEar` and `EarClip` are the loops of the
    triangulator, each proved to compute what the reference says. */
module EarClipping {
  import opened Geometry

  datatype Option<T> = None | Some(value: T)

  /** An emitted triangle, with its corners in the order (previous, current, next). */
  datatype Triangle = Triangle(prev: Point, curr: Point, next: Point)

  /** The outcome of a run: the emitted triangles, the working list left over,
      and whether the run gave up because a pass found no ear. */
  datatype Clipping = Clipping(triangles: seq<Triangle>, remaining: seq<Point>, stuck: bool)

  // ---------------------------------------------------------------------------
  // Cyclic neighbours and removal

  /** Index of the vertex before `i` on a closed polygon of `n` vertices. */
  function PrevIndex(n: nat, i: nat): (k: nat)
    requires i < n
    ensures k < n
    ensures i == 0 ==> k == n - 1
    ensures i > 0 ==> k == i - 1
  {
    (i + n - 1) % n
  }

  /** Index of the vertex after `i` on a closed polygon of `n` vertices. */
  function NextIndex(n: nat, i: nat): (k: nat)
    requires i < n
    ensures k < n
    ensures i == n - 1 ==> k == 0
    ensures i < n - 1 ==> k == i + 1
  {
    (i + 1) % n
  }

  /** Stepping back and then forward (or forward and then back) around the
      polygon returns to the starting index, and on three or more vertices the
      two neighbours of a vertex are distinct from it and from each other. */
  lemma NeighboursAreInverse(n: nat, i: nat)
    requires i < n
    ensures NextIndex(n, PrevIndex(n, i)) == i
    ensures PrevIndex(n, NextIndex(n, i)) == i
    ensures n >= 3 ==> PrevIndex(n, i) != i && NextIndex(n, i) != i && PrevIndex(n, i) != NextIndex(n, i)
  {
  }

  /** The list with the element at index `i` deleted; the other elements keep
      their relative order. */
  function RemoveAt<T>(s: seq<T>, i: nat): (r: seq<T>)
    requires i < |s|
    ensures |r| == |s| - 1
    ensures forall k :: 0 <= k < i ==> r[k] == s[k]
    ensures forall k :: i <= k < |r| ==> r[k] == s[k + 1]
  {
    s[..i] + s[i + 1..]
  }

  /** Removal loses exactly the removed element: nothing else disappears and
      nothing new appears. */
  lemma RemoveAtMultiset<T>(s: seq<T>, i: nat)
    requires i < |s|
    ensures multiset(RemoveAt(s, i)) + multiset{s[i]} == multiset(s)
    ensures forall v :: v in RemoveAt(s, i) ==> v in s
  {
    assert s == s[..i] + [s[i]] + s[i + 1..];
  }

  // ---------------------------------------------------------------------------
  // Ears

  /** The triangle formed by vertex `i` of `polygon` and its two neighbours. */
  function EarTriangle(polygon: seq<Point>, i: nat): Triangle
    requires i < |polygon|
  {
    var n := |polygon|;
    Triangle(polygon[PrevIndex(n, i)], polygon[i], polygon[NextIndex(n, i)])
  }

  /** Index `j` is neither `i` nor one of its two neighbours. */
  predicate IsOtherIndex(n: nat, i: nat, j: nat)
    requires i < n
  {
    j != i && j != NextIndex(n, i) && j != PrevIndex(n, i)
  }

  /** The triangle of a convex corner contains no vertex of the list other than
      its own three corners (points on its boundary count as contained). */
  predicate ContainsNoOther(polygon: seq<Point>, i: nat)
    requires i < |polygon|
    requires var t := EarTriangle(polygon, i); IsConvex(t.prev, t.curr, t.next)
  {
    var n := |polygon|;
    var t := EarTriangle(polygon, i);
    TwiceAreaIsCross(t.prev, t.curr, t.next);
    forall j :: 0 <= j < n && IsOtherIndex(n, i, j) ==> !PointInTriangle(polygon[j], t.prev, t.curr, t.next)
  }

  /** Vertex `i` is an ear: its corner is convex and its triangle is empty. */
  predicate IsEar(polygon: seq<Point>, i: nat)
    requires i < |polygon|
  {
    var t := EarTriangle(polygon, i);
    IsConvex(t.prev, t.curr, t.next) && ContainsNoOther(polygon, i)
  }

  /** Ears by the division-free side test: vertex `i` is an ear exactly when
      its corner is convex and no other vertex passes the side test for its
      triangle. */
  lemma IsEarBySides(polygon: seq<Point>, i: nat)
    requires i < |polygon|
    ensures var t := EarTriangle(polygon, i);
      IsEar(polygon, i) <==>
        IsConvex(t.prev, t.curr, t.next)
        && forall j :: 0 <= j < |polygon| && IsOtherIndex(|polygon|, i, j) ==> !InsideBySides(polygon[j], t.prev, t.curr, t.next)
  {
    var t := EarTriangle(polygon, i);
    if IsConvex(t.prev, t.curr, t.next) {
      TwiceAreaIsCross(t.prev, t.curr, t.next);
      forall j | 0 <= j < |polygon| && IsOtherIndex(|polygon|, i, j)
        ensures PointInTriangle(polygon[j], t.prev, t.curr, t.next) <==> InsideBySides(polygon[j], t.prev, t.curr, t.next)
      {
        PointInTriangleBySides(polygon[j], t.prev, t.curr, t.next);
      }
    }
  }

  /** The smallest ear index at or after `from`, if there is one. */
  function FirstEarFrom(polygon: seq<Point>, from: nat): (r: Option<nat>)
    requires from <= |polygon|
    ensures r.Some? ==> from <= r.value < |polygon| && IsEar(polygon, r.value)
    ensures r.Some? ==> forall k :: from <= k < r.value ==> !IsEar(polygon, k)
    ensures r.None? ==> forall k :: from <= k < |polygon| ==> !IsEar(polygon, k)
    decreases |polygon| - from
  {
    if from == |polygon| then None
    else if IsEar(polygon, from) then Some(from)
    else FirstEarFrom(polygon, from + 1)
  }

  /** The ear a pass over `polygon` picks: the smallest ear index, if any. */
  function FirstEar(polygon: seq<Point>): (r: Option<nat>)
    ensures r.Some? ==> r.value < |polygon| && IsEar(polygon, r.value)
    ensures r.Some? ==> forall k :: 0 <= k < r.value ==> !IsEar(polygon, k)
    ensures r.None? ==> forall k :: 0 <= k < |polygon| ==> !IsEar(polygon, k)
  {
    FirstEarFrom(polygon, 0)
  }

  // ---------------------------------------------------------------------------
  // Reference definition of a run

  /** What the triangulator produces from a working list: while three or more
      vertices are left, clip the first ear; give up when there is none. */
  function Triangulation(polygon: seq<Point>): Clipping
    decreases |polygon|
  {
    if |polygon| < 3 then Clipping([], polygon, false)
    else match FirstEar(polygon)
      case None => Clipping([], polygon, true)
      case Some(i) =>
        var rest := Triangulation(RemoveAt(polygon, i));
        Clipping([EarTriangle(polygon, i)] + rest.triangles, rest.remaining, rest.stuck)
  }

  /** One clip of the reference run: the first ear's triangle, followed by the
      run on the list without that ear. */
  lemma ClipStep(polygon: seq<Point>, i: nat)
    requires |polygon| >= 3 && FirstEar(polygon) == Some(i)
    ensures i < |polygon|
    ensures Triangulation(polygon).triangles == [EarTriangle(polygon, i)] + Triangulation(RemoveAt(polygon, i)).triangles
    ensures Triangulation(polygon).remaining == Triangulation(RemoveAt(polygon, i)).remaining
    ensures Triangulation(polygon).stuck == Triangulation(RemoveAt(polygon, i)).stuck
  {
  }

  /** Clipping the first ear moves its triangle from the run still to come to
      the triangles already emitted, and leaves the outcome unchanged. */
  lemma ClipKeepsRun(polygon: seq<Point>, i: nat, done: seq<Triangle>)
    requires |polygon| >= 3 && FirstEar(polygon) == Some(i)
    ensures i < |polygon|
    ensures done + Triangulation(polygon).triangles
         == (done + [EarTriangle(polygon, i)]) + Triangulation(RemoveAt(polygon, i)).triangles
    ensures Triangulation(polygon).stuck == Triangulation(RemoveAt(polygon, i)).stuck
  {
    ClipStep(polygon, i);
  }

  /** The two ways a reference run ends at once: too few vertices, or no ear. */
  lemma RunEnds(polygon: seq<Point>)
    ensures |polygon| < 3 ==> Triangulation(polygon) == Clipping([], polygon, false)
    ensures |polygon| >= 3 && FirstEar(polygon).None? ==> Triangulation(polygon) == Clipping([], polygon, true)
  {
  }

  // ---------------------------------------------------------------------------
  // The triangulator's loops

  /** The inner scan of a pass: does any vertex other than `i` and its two
      neighbours lie in (or on) the triangle of the convex corner at `i`? */
  method HasVertexInside(polygon: seq<Point>, i: nat) returns (anyInside: bool)
    requires i < |polygon|
    requires var t := EarTriangle(polygon, i); IsConvex(t.prev, t.curr, t.next)
    ensures anyInside <==> !ContainsNoOther(polygon, i)
  {
    var n := |polygon|;
    var prev, curr, next := polygon[(i + n - 1) % n], polygon[i], polygon[(i + 1) % n];
    TwiceAreaIsCross(prev, curr, next);
    anyInside := false;
    var j := 0;
    while j < n
      invariant 0 <= j <= n
      invariant forall k :: 0 <= k < j && IsOtherIndex(n, i, k) ==> !PointInTriangle(polygon[k], prev, curr, next)
    {
      if j == i || j == (i + 1) % n || j == (i + n - 1) % n {
        j := j + 1;
        continue;
      }
      if PointInTriangle(polygon[j], prev, curr, next) {
        anyInside := true;
        break;
      }
      j := j + 1;
    }
  }

  /** One pass of the outer loop: scan the indices in increasing order and
      report the first ear, if any. */
  method FindFirstEar(polygon: seq<Point>) returns (earFound: bool, ear: nat)
    requires |polygon| >= 3
    ensures earFound <==> FirstEar(polygon).Some?
    ensures earFound ==> ear == FirstEar(polygon).value
  {
    var n := |polygon|;
    earFound, ear := false, 0;
    var i := 0;
    while i < n
      invariant 0 <= i <= n
      invariant forall k :: 0 <= k < i ==> !IsEar(polygon, k)
    {
      var prev, curr, next := polygon[(i + n - 1) % n], polygon[i], polygon[(i + 1) % n];
      if IsConvex(prev, curr, next) {
        var anyInside := HasVertexInside(polygon, i);
        if !anyInside {
          earFound, ear := true, i;
          break;
        }
      }
      i := i + 1;
    }
    FirstEarIsSmallest(polygon, earFound, ear);
  }

  /** If `ear` is an ear with no ear before it, it is the first ear; if no
      index is an ear, there is no first ear. */
  lemma FirstEarIsSmallest(polygon: seq<Point>, earFound: bool, ear: nat)
    requires earFound ==> ear < |polygon| && IsEar(polygon, ear)
    requires forall k :: 0 <= k < (if earFound then ear else |polygon|) ==> !IsEar(polygon, k)
    ensures earFound <==> FirstEar(polygon).Some?
    ensures earFound ==> ear == FirstEar(polygon).value
  {
  }

  /** The triangulator. It clips ears from a private copy of `vertices` until
      fewer than three vertices are left, and reports `stuck` when it had to
      give up because a pass found no ear. */
  method EarClip(vertices: seq<Point>) returns (triangles: seq<Triangle>, stuck: bool)
    ensures triangles == Triangulation(vertices).triangles
    ensures stuck == Triangulation(vertices).stuck
    ensures |triangles| <= if |vertices| < 3 then 0 else |vertices| - 2
    ensures !stuck && |vertices| >= 3 ==> |triangles| == |vertices| - 2
  {
    triangles := [];
    stuck := false;
    var polygon := vertices;
    while |polygon| >= 3
      invariant Triangulation(vertices).triangles == triangles + Triangulation(polygon).triangles
      invariant Triangulation(vertices).stuck == Triangulation(polygon).stuck
      invariant |triangles| + |polygon| == |vertices|
      decreases |polygon|
    {
      var earFound, i := FindFirstEar(polygon);
      if !earFound {
        RunEnds(polygon);
        stuck := true;
        break;
      }
      ClipKeepsRun(polygon, i, triangles);
      triangles := triangles + [EarTriangle(polygon, i)];
      polygon := RemoveAt(polygon, i);
    }
    RunEnds(polygon);
    TriangleCount(vertices);
  }

  // ---------------------------------------------------------------------------
  // Properties of a run

  /** Every clip turns one vertex into one triangle, so the number of triangles
      plus the number of vertices left is the input's vertex count. */
  lemma {:induction false} CountConserved(polygon: seq<Point>)
    ensures |Triangulation(polygon).triangles| + |Triangulation(polygon).remaining| == |polygon|
    decreases |polygon|
  {
    if |polygon| >= 3 && FirstEar(polygon).Some? {
      CountConserved(RemoveAt(polygon, FirstEar(polygon).value));
    }
  }

  /** How a run ends: a run that gives up leaves three or more vertices none of
      which is an ear; any other run leaves exactly two vertices, unless the
      input had fewer than three, which it leaves untouched. */
  lemma {:induction false} HowARunEnds(polygon: seq<Point>)
    ensures var r := Triangulation(polygon);
      r.stuck ==> |r.remaining| >= 3 && forall k :: 0 <= k < |r.remaining| ==> !IsEar(r.remaining, k)
    ensures var r := Triangulation(polygon);
      !r.stuck ==> |r.remaining| == (if |polygon| < 3 then |polygon| else 2)
    ensures |polygon| < 3 ==> Triangulation(polygon) == Clipping([], polygon, false)
    decreases |polygon|
  {
    if |polygon| >= 3 && FirstEar(polygon).Some? {
      HowARunEnds(RemoveAt(polygon, FirstEar(polygon).value));
    }
  }

  /** The triangle count: none for fewer than three vertices, at most n - 2 in
      general, and exactly n - 2 when the run does not give up. */
  lemma TriangleCount(polygon: seq<Point>)
    ensures |polygon| < 3 ==> Triangulation(polygon).triangles == []
    ensures |Triangulation(polygon).triangles| <= if |polygon| < 3 then 0 else |polygon| - 2
    ensures !Triangulation(polygon).stuck && |polygon| >= 3 ==> |Triangulation(polygon).triangles| == |polygon| - 2
  {
    CountConserved(polygon);
    HowARunEnds(polygon);
  }

  /** Each emitted triangle turns one vertex of the input into a triangle
      whose middle corner is that vertex: the middle corners and the vertices
      left over together are exactly the input, counted with multiplicity. */
  lemma {:induction false} VerticesConserved(polygon: seq<Point>)
    ensures multiset(Triangulation(polygon).remaining) + multiset(Middles(Triangulation(polygon).triangles))
         == multiset(polygon)
    decreases |polygon|
  {
    if |polygon| < 3 || FirstEar(polygon).None? {
      RunEnds(polygon);
    } else {
      var i := FirstEar(polygon).value;
      var rest := RemoveAt(polygon, i);
      ClipStep(polygon, i);
      VerticesConserved(rest);
      RemoveAtMultiset(polygon, i);
      MiddlesPrepend(EarTriangle(polygon, i), Triangulation(rest).triangles);
    }
  }

  /** Prepending a triangle adds its middle corner to the middle corners. */
  lemma MiddlesPrepend(t: Triangle, ts: seq<Triangle>)
    ensures multiset(Middles([t] + ts)) == multiset{t.curr} + multiset(Middles(ts))
  {
    assert Middles([t] + ts) == [t.curr] + Middles(ts);
  }

  /** The middle corners of a list of triangles, in order. */
  function Middles(triangles: seq<Triangle>): seq<Point>
  {
    seq(|triangles|, k requires 0 <= k < |triangles| => triangles[k].curr)
  }

  /** Every corner of every emitted triangle, and every vertex left over, is a
      vertex of the input. */
  lemma {:induction false} CornersAreInputVertices(polygon: seq<Point>)
    ensures forall t :: t in Triangulation(polygon).triangles ==> t.prev in polygon && t.curr in polygon && t.next in polygon
    ensures forall v :: v in Triangulation(polygon).remaining ==> v in polygon
    decreases |polygon|
  {
    if |polygon| >= 3 && FirstEar(polygon).Some? {
      var i := FirstEar(polygon).value;
      var rest := RemoveAt(polygon, i);
      CornersAreInputVertices(rest);
      RemoveAtMultiset(polygon, i);
    }
  }

  /** Every emitted triangle passes the convexity test. That each one is also
      empty (contains no other vertex of the working list it was clipped from)
      follows from `EachTriangleIsTheFirstEar` and the contract of `FirstEar`. */
  lemma {:induction false} EmittedTrianglesAreConvex(polygon: seq<Point>)
    ensures forall t :: t in Triangulation(polygon).triangles ==> IsConvex(t.prev, t.curr, t.next)
    decreases |polygon|
  {
    if |polygon| >= 3 && FirstEar(polygon).Some? {
      var i := FirstEar(polygon).value;
      EmittedTrianglesAreConvex(RemoveAt(polygon, i));
    }
  }

  /** A three-vertex input [v0, v1, v2] yields the single triangle (v2, v0, v1)
      when that corner is convex. Otherwise no corner is convex, since the
      orientation does not depend on the starting corner, and the run gives up
      with no triangle. */
  lemma ThreeVertices(v0: Point, v1: Point, v2: Point)
    ensures Triangulation([v0, v1, v2]).triangles
         == if IsConvex(v2, v0, v1) then [Triangle(v2, v0, v1)] else []
    ensures Triangulation([v0, v1, v2]).stuck <==> !IsConvex(v2, v0, v1)
  {
    var p := [v0, v1, v2];
    assert EarTriangle(p, 0) == Triangle(v2, v0, v1);
    assert EarTriangle(p, 1) == Triangle(v0, v1, v2);
    assert EarTriangle(p, 2) == Triangle(v1, v2, v0);
    ConvexityUnderRotation(v2, v0, v1);
    ConvexityUnderRotation(v0, v1, v2);
    if IsConvex(v2, v0, v1) {
      assert IsEar(p, 0);
      assert FirstEar(p) == Some(0);
      ClipStep(p, 0);
      RunEnds(RemoveAt(p, 0));
    } else {
      assert !IsEar(p, 0) && !IsEar(p, 1) && !IsEar(p, 2);
      assert FirstEar(p).None?;
      RunEnds(p);
    }
  }

  /** The working lists a run goes through, from the input to the list it
      stops with. */
  function Stages(polygon: seq<Point>): seq<seq<Point>>
    decreases |polygon|
  {
    if |polygon| < 3 || FirstEar(polygon).None? then [polygon]
    else [polygon] + Stages(RemoveAt(polygon, FirstEar(polygon).value))
  }

  /** One pass that finds an ear: `w` has three or more vertices, `t` is the
      triangle of its first ear, and `w'` is `w` without that ear vertex. */
  predicate ClipsTo(w: seq<Point>, t: Triangle, w': seq<Point>)
  {
    && |w| >= 3
    && FirstEar(w).Some?
    && t == EarTriangle(w, FirstEar(w).value)
    && w' == RemoveAt(w, FirstEar(w).value)
  }

  /** `stages` and `triangles` record a run clipping first ears from `polygon`:
      the k-th working list has |polygon| - k vertices and clips to the k-th
      triangle and the next working list. */
  ghost predicate IsClippingTrace(polygon: seq<Point>, stages: seq<seq<Point>>, triangles: seq<Triangle>)
  {
    && |stages| == |triangles| + 1
    && stages[0] == polygon
    && forall k :: 0 <= k < |triangles| ==>
      |stages[k]| == |polygon| - k && ClipsTo(stages[k], triangles[k], stages[k + 1])
  }

  /** Clipping the first ear in front of a trace of the rest gives a trace. */
  lemma TraceCons(polygon: seq<Point>, i: nat, stages: seq<seq<Point>>, triangles: seq<Triangle>)
    requires |polygon| >= 3 && FirstEar(polygon) == Some(i)
    requires IsClippingTrace(RemoveAt(polygon, i), stages, triangles)
    ensures IsClippingTrace(polygon, [polygon] + stages, [EarTriangle(polygon, i)] + triangles)
  {
    var ws, ts := [polygon] + stages, [EarTriangle(polygon, i)] + triangles;
    assert ClipsTo(ws[0], ts[0], ws[1]);
    forall k | 1 <= k < |ts|
      ensures |ws[k]| == |polygon| - k && ClipsTo(ws[k], ts[k], ws[k + 1])
    {
      assert ws[k] == stages[k - 1] && ts[k] == triangles[k - 1] && ws[k + 1] == stages[k];
    }
  }

  /** Every run is a trace of first-ear clips: together with the contract of
      `FirstEar`, each emitted triangle is convex, contains no other vertex of
      the list it was clipped from, and no smaller index of that list was an
      ear; the last working list is what the run leaves over. */
  lemma {:induction false} EachTriangleIsTheFirstEar(polygon: seq<Point>)
    ensures IsClippingTrace(polygon, Stages(polygon), Triangulation(polygon).triangles)
    ensures Stages(polygon)[|Stages(polygon)| - 1] == Triangulation(polygon).remaining
    decreases |polygon|
  {
    if |polygon| < 3 || FirstEar(polygon).None? {
      RunEnds(polygon);
    } else {
      var i := FirstEar(polygon).value;
      var rest := RemoveAt(polygon, i);
      ClipStep(polygon, i);
      EachTriangleIsTheFirstEar(rest);
      TraceCons(polygon, i, Stages(rest), Triangulation(rest).triangles);
      assert Stages(polygon) == [polygon] + Stages(rest);
    }
  }
}

=== FILE: geometry.dfy ===
/** Plane geometry used by the ear-clipping triangulator: polygon vertices with
    exact integer coordinates, the orientation test that decides whether a corner
    is convex, and the barycentric point-in-triangle test. */
module Geometry {

  /** A polygon vertex. The source stores `f32` values converted from `i32`
      image coordinates; the model keeps them as unbounded integers and
      computes with them exactly, which `f32` matches only while coordinates
      and products stay small enough to be represented without rounding. */
  datatype Point = Point(x: int, y: int)

  /** Builds a vertex from image coordinates, turning the image's downward
      vertical axis into an upward one for an image `height` pixels tall.
      The subtraction is exact here; in 32-bit arithmetic it can overflow. */
  function NewVertex(x: int, y: int, height: int): Point
  {
    Point(x, height - y)
  }

  /** Converting a vertex back with the same height recovers the image
      coordinates: the flip of the vertical axis is its own inverse, so no two
      image points give the same vertex. */
  lemma NewVertexRoundTrip(x: int, y: int, height: int)
    ensures var v := NewVertex(x, y, height); NewVertex(v.x, v.y, height) == Point(x, y)
    ensures forall x', y' :: NewVertex(x', y', height) == NewVertex(x, y, height) ==> x' == x && y' == y
  {
  }

  /** Twice the signed area of the triangle (a, b, c): positive when a -> b -> c
      turns counter-clockwise, negative when it turns clockwise, zero when the
      three points are collinear. */
  function Cross(a: Point, b: Point, c: Point): int
  {
    (b.x - a.x) * (c.y - a.y) - (b.y - a.y) * (c.x - a.x)
  }

  /** The corner at `b` between `a` and `c` counts as convex only for a strictly
      clockwise turn; collinear triples never do. */
  predicate IsConvex(a: Point, b: Point, c: Point)
  {
    Cross(a, b, c) < 0
  }

  /** Twice the area the point-in-triangle test divides by, written the way the
      source writes it. */
  function TwiceArea(a: Point, b: Point, c: Point): int
  {
    -b.y * c.x + a.y * (-b.x + c.x) + a.x * (b.y - c.y) + b.x * c.y
  }

  /** Numerator of the barycentric weight `s` (the weight of `b`). */
  function WeightSNumerator(p: Point, a: Point, c: Point): int
  {
    a.y * c.x - a.x * c.y + (c.y - a.y) * p.x + (a.x - c.x) * p.y
  }

  /** Numerator of the barycentric weight `t` (the weight of `c`). */
  function WeightTNumerator(p: Point, a: Point, b: Point): int
  {
    a.x * b.y - a.y * b.x + (a.y - b.y) * p.x + (b.x - a.x) * p.y
  }

  /** Barycentric membership test: `s` and `t` are area ratios, `u = 1 - s - t`,
      and the point is inside when all three are non-negative, so the edges and
      the corners themselves count as inside. The triangle must have non-zero
      area, since the test divides by it. */
  function PointInTriangle(p: Point, a: Point, b: Point, c: Point): bool
    requires TwiceArea(a, b, c) != 0
  {
    WeightsNonNegative(TwiceArea(a, b, c), WeightSNumerator(p, a, c), WeightTNumerator(p, a, b))
  }

  /** The final step of the membership test: from the doubled area `d` and the
      numerators of `s` and `t`, compute the three weights over the reals and
      check that none is negative. */
  function WeightsNonNegative(d: int, sn: int, tn: int): bool
    requires d != 0
  {
    var area := 0.5 * (d as real);
    var s := 1.0 / (2.0 * area) * (sn as real);
    var t := 1.0 / (2.0 * area) * (tn as real);
    var u := 1.0 - s - t;
    s >= 0.0 && t >= 0.0 && u >= 0.0
  }

  /** `n` is zero or has the same sign as the non-zero `d`: the quotient n / d
      is non-negative. */
  predicate SameSignOrZero(n: int, d: int)
  {
    n == 0 || (n < 0 <==> d < 0)
  }

  /** Division-free reference for membership: p lies in the closed triangle
      (a, b, c) when replacing any one corner by p gives a triangle that is
      degenerate or has the same orientation as (a, b, c). */
  predicate InsideBySides(p: Point, a: Point, b: Point, c: Point)
  {
    var d := Cross(a, b, c);
    SameSignOrZero(Cross(p, b, c), d)
    && SameSignOrZero(Cross(a, p, c), d)
    && SameSignOrZero(Cross(a, b, p), d)
  }

  // ---------------------------------------------------------------------------
  // Orientation

  /** The area the membership test divides by is the same signed quantity as
      the cross product of the convexity test; hence a convex corner never
      leads to a division by zero. */
  lemma TwiceAreaIsCross(a: Point, b: Point, c: Point)
    ensures TwiceArea(a, b, c) == Cross(a, b, c)
    ensures IsConvex(a, b, c) ==> TwiceArea(a, b, c) != 0
  {
  }

  /** A collinear triple is never convex. */
  lemma CollinearIsNotConvex(a: Point, b: Point, c: Point)
    requires Cross(a, b, c) == 0
    ensures !IsConvex(a, b, c)
  {
  }

  /** Convexity does not depend on which of the three corners the triple
      starts from, and reversing the traversal turns a convex corner into a
      reflex one. */
  lemma ConvexityUnderRotation(a: Point, b: Point, c: Point)
    ensures Cross(b, c, a) == Cross(a, b, c)
    ensures IsConvex(a, b, c) <==> IsConvex(b, c, a)
    ensures IsConvex(a, b, c) ==> !IsConvex(c, b, a)
  {
  }

  /** Flipping the vertical axis reverses every orientation: a corner that
      turns clockwise in image coordinates turns counter-clockwise after
      `NewVertex`, so the winding of the caller's list decides convexity. */
  lemma FlipReversesOrientation(a: Point, b: Point, c: Point, height: int)
    ensures Cross(NewVertex(a.x, a.y, height), NewVertex(b.x, b.y, height), NewVertex(c.x, c.y, height))
         == -Cross(a, b, c)
  {
  }

  // ---------------------------------------------------------------------------
  // Barycentric test

  /** The numerators of the barycentric weights are the signed areas of the
      sub-triangles obtained by replacing one corner by p. */
  lemma WeightsAreSubAreas(p: Point, a: Point, b: Point, c: Point)
    ensures WeightSNumerator(p, a, c) == Cross(a, p, c)
    ensures WeightTNumerator(p, a, b) == Cross(a, b, p)
    ensures TwiceArea(a, b, c) - WeightSNumerator(p, a, c) - WeightTNumerator(p, a, b) == Cross(p, b, c)
  {
  }

  /** n / d, computed as (1 / d) * n, is non-negative exactly when n is zero
      or shares the sign of d. */
  lemma QuotientNonNegative(n: int, d: int)
    requires d != 0
    ensures 1.0 / (d as real) * (n as real) >= 0.0 <==> SameSignOrZero(n, d)
  {
    var q := 1.0 / (d as real);
    assert q * (d as real) == 1.0;
    if d > 0 {
      assert q > 0.0;
      if n >= 0 {
        assert q * (n as real) >= 0.0;
      } else {
        assert q * (n as real) < 0.0;
      }
    } else {
      assert q < 0.0;
      if n <= 0 {
        assert q * (n as real) >= 0.0;
      } else {
        assert q * (n as real) < 0.0;
      }
    }
  }

  /** The three barycentric weights, computed over the reals from a doubled
      area `d` and two numerators as the membership test does, are all
      non-negative exactly when each numerator (the third one being
      d - sn - tn) is zero or shares the sign of d. */
  lemma WeightSigns(d: int, sn: int, tn: int)
    requires d != 0
    ensures WeightsNonNegative(d, sn, tn)
      <==> (SameSignOrZero(sn, d) && SameSignOrZero(tn, d) && SameSignOrZero(d - sn - tn, d))
  {
    var area := 0.5 * (d as real);
    assert 2.0 * area == d as real;
    var q := 1.0 / (d as real);
    var s := q * (sn as real);
    var t := q * (tn as real);
    assert q * (d as real) == 1.0;
    assert 1.0 - s - t == q * ((d - sn - tn) as real) by {
      assert (d - sn - tn) as real == (d as real) - (sn as real) - (tn as real);
      assert q * ((d as real) - (sn as real) - (tn as real))
          == q * (d as real) - q * (sn as real) - q * (tn as real);
    }
    QuotientNonNegative(sn, d);
    QuotientNonNegative(tn, d);
    QuotientNonNegative(d - sn - tn, d);
  }

  /** The barycentric test agrees with the division-free side test on every
      triangle of non-zero area: each of s, t and u is non-negative exactly
      when its numerator is zero or has the sign of the triangle's area. */
  lemma PointInTriangleBySides(p: Point, a: Point, b: Point, c: Point)
    requires TwiceArea(a, b, c) != 0
    ensures PointInTriangle(p, a, b, c) <==> InsideBySides(p, a, b, c)
  {
    var d, sn, tn := TwiceArea(a, b, c), WeightSNumerator(p, a, c), WeightTNumerator(p, a, b);
    WeightSigns(d, sn, tn);
    WeightsAreSubAreas(p, a, b, c);
    TwiceAreaIsCross(a, b, c);
    assert sn == Cross(a, p, c) && tn == Cross(a, b, p) && d - sn - tn == Cross(p, b, c) && d == Cross(a, b, c);
  }

  /** The triangle's own corners count as inside it. */
  lemma CornersAreInside(a: Point, b: Point, c: Point)
    requires TwiceArea(a, b, c) != 0
    ensures PointInTriangle(a, a, b, c)
    ensures PointInTriangle(b, a, b, c)
    ensures PointInTriangle(c, a, b, c)
  {
    PointInTriangleBySides(a, a, b, c);
    PointInTriangleBySides(b, a, b, c);
    PointInTriangleBySides(c, a, b, c);
    TwiceAreaIsCross(a, b, c);
  }

  /** The side test does not depend on which corner is listed first. */
  lemma SidesRotate(p: Point, a: Point, b: Point, c: Point)
    ensures InsideBySides(p, a, b, c) <==> InsideBySides(p, b, c, a)
  {
    ConvexityUnderRotation(a, b, c);
    ConvexityUnderRotation(a, p, c);
    ConvexityUnderRotation(a, b, p);
    ConvexityUnderRotation(p, b, c);
  }

  /** Rotating the corners keeps the area non-zero and does not change the
      barycentric test's answer, although its formula singles out corner a. */
  lemma PointInTriangleRotates(p: Point, a: Point, b: Point, c: Point)
    requires TwiceArea(a, b, c) != 0
    ensures TwiceArea(b, c, a) != 0
    ensures PointInTriangle(p, a, b, c) <==> PointInTriangle(p, b, c, a)
  {
    TwiceAreaIsCross(a, b, c);
    TwiceAreaIsCross(b, c, a);
    ConvexityUnderRotation(a, b, c);
    PointInTriangleBySides(p, a, b, c);
    PointInTriangleBySides(p, b, c, a);
    SidesRotate(p, a, b, c);
  }

  /** Every point of the closed segment between two corners counts as inside:
      a point a + k/m (b - a) with 0 <= k <= m on edge ab, given in integer form
      as m * p == (m - k) * a + k * b. */
  lemma EdgePointsAreInside(p: Point, a: Point, b: Point, c: Point, k: int, m: int)
    requires TwiceArea(a, b, c) != 0
    requires 0 <= k <= m && 0 < m
    requires m * p.x == (m - k) * a.x + k * b.x
    requires m * p.y == (m - k) * a.y + k * b.y
    ensures PointInTriangle(p, a, b, c)
  {
    PointInTriangleBySides(p, a, b, c);
    TwiceAreaIsCross(a, b, c);
    var d := Cross(a, b, c);
    assert m * Cross(p, b, c) == (m - k) * d by {
      EdgeAreaScaling(p, a, b, c, k, m);
    }
    assert m * Cross(a, p, c) == k * d by {
      EdgeAreaScaling(p, a, b, c, k, m);
    }
    assert Cross(a, b, p) == 0 by {
      EdgeAreaScaling(p, a, b, c, k, m);
    }
    SignOfScaled(Cross(p, b, c), m - k, m, d);
    SignOfScaled(Cross(a, p, c), k, m, d);
  }

  /** Every point of the closed edge bc counts as inside. */
  lemma SecondEdgePointsAreInside(p: Point, a: Point, b: Point, c: Point, k: int, m: int)
    requires TwiceArea(a, b, c) != 0
    requires 0 <= k <= m && 0 < m
    requires m * p.x == (m - k) * b.x + k * c.x
    requires m * p.y == (m - k) * b.y + k * c.y
    ensures PointInTriangle(p, a, b, c)
  {
    PointInTriangleRotates(p, a, b, c);
    EdgePointsAreInside(p, b, c, a, k, m);
  }

  /** Every point of the closed edge ca counts as inside. */
  lemma ThirdEdgePointsAreInside(p: Point, a: Point, b: Point, c: Point, k: int, m: int)
    requires TwiceArea(a, b, c) != 0
    requires 0 <= k <= m && 0 < m
    requires m * p.x == (m - k) * c.x + k * a.x
    requires m * p.y == (m - k) * c.y + k * a.y
    ensures PointInTriangle(p, a, b, c)
  {
    PointInTriangleRotates(p, a, b, c);
    PointInTriangleRotates(p, b, c, a);
    EdgePointsAreInside(p, c, a, b, k, m);
  }

  /** Cross(p, b, c) is affine in p. */
  lemma CrossAffineInFirst(p: Point, b: Point, c: Point)
    ensures Cross(p, b, c) == (b.x * c.y - b.y * c.x) + p.x * (b.y - c.y) + p.y * (c.x - b.x)
  {
  }

  /** The sub-areas of a point on edge ab scale with its position on the edge. */
  lemma EdgeAreaScaling(p: Point, a: Point, b: Point, c: Point, k: int, m: int)
    requires 0 < m
    requires m * p.x == (m - k) * a.x + k * b.x
    requires m * p.y == (m - k) * a.y + k * b.y
    ensures m * Cross(p, b, c) == (m - k) * Cross(a, b, c)
    ensures m * Cross(a, p, c) == k * Cross(a, b, c)
    ensures Cross(a, b, p) == 0
  {
    FirstSubArea(p, a, b, c, k, m);
    SecondSubArea(p, a, b, c, k, m);
    ThirdSubArea(p, a, b, k, m);
  }

  /** First sub-area of a point on edge ab, through its affine form. */
  lemma FirstSubArea(p: Point, a: Point, b: Point, c: Point, k: int, m: int)
    requires m * p.x == (m - k) * a.x + k * b.x
    requires m * p.y == (m - k) * a.y + k * b.y
    ensures m * Cross(p, b, c) == (m - k) * Cross(a, b, c)
  {
    var e := b.x * c.y - b.y * c.x;
    var gx, gy := b.y - c.y, c.x - b.x;
    CrossAffineInFirst(p, b, c);
    CrossAffineInFirst(a, b, c);
    CrossAffineInFirst(b, b, c);
    AffineCombination(m, k, p.x, p.y, a.x, a.y, b.x, b.y, e, gx, gy);
  }

  /** An affine function e + x * gx + y * gy of a point that divides the
      segment from (ax, ay) to (qx, qy) in the ratio k : (m - k), scaled by m,
      is the matching combination of its values at the two ends. */
  lemma AffineCombination(m: int, k: int, px: int, py: int, ax: int, ay: int, qx: int, qy: int,
                          e: int, gx: int, gy: int)
    requires m * px == (m - k) * ax + k * qx
    requires m * py == (m - k) * ay + k * qy
    ensures m * (e + px * gx + py * gy) == (m - k) * (e + ax * gx + ay * gy) + k * (e + qx * gx + qy * gy)
  {
    ScaledTerm(m, k, px, ax, qx, gx);
    ScaledTerm(m, k, py, ay, qy, gy);
    assert m * (e + px * gx + py * gy) == m * e + m * (px * gx) + m * (py * gy);
    assert (m - k) * (e + ax * gx + ay * gy) == (m - k) * e + (m - k) * (ax * gx) + (m - k) * (ay * gy);
    assert k * (e + qx * gx + qy * gy) == k * e + k * (qx * gx) + k * (qy * gy);
  }

  /** Second sub-area of a point on edge ab: it vanishes at a and is the whole
      area at b. */
  lemma SecondSubArea(p: Point, a: Point, b: Point, c: Point, k: int, m: int)
    requires m * p.x == (m - k) * a.x + k * b.x
    requires m * p.y == (m - k) * a.y + k * b.y
    ensures m * Cross(a, p, c) == k * Cross(a, b, c)
  {
    var e := a.y * (c.x - a.x) - a.x * (c.y - a.y);
    var gx, gy := c.y - a.y, a.x - c.x;
    CrossAffineInSecond(a, p, c);
    CrossAffineInSecond(a, a, c);
    CrossAffineInSecond(a, b, c);
    AffineCombination(m, k, p.x, p.y, a.x, a.y, b.x, b.y, e, gx, gy);
  }

  /** Third sub-area of a point on edge ab: the point is collinear with a and
      b, so the area vanishes. */
  lemma ThirdSubArea(p: Point, a: Point, b: Point, k: int, m: int)
    requires 0 < m
    requires m * p.x == (m - k) * a.x + k * b.x
    requires m * p.y == (m - k) * a.y + k * b.y
    ensures Cross(a, b, p) == 0
  {
    var e := a.x * (b.y - a.y) - a.y * (b.x - a.x);
    var gx, gy := a.y - b.y, b.x - a.x;
    CrossAffineInThird(a, b, p);
    CrossAffineInThird(a, b, a);
    CrossAffineInThird(a, b, b);
    AffineCombination(m, k, p.x, p.y, a.x, a.y, b.x, b.y, e, gx, gy);
  }

  /** Cross(a, p, c) is affine in p. */
  lemma CrossAffineInSecond(a: Point, p: Point, c: Point)
    ensures Cross(a, p, c) == (a.y * (c.x - a.x) - a.x * (c.y - a.y)) + p.x * (c.y - a.y) + p.y * (a.x - c.x)
  {
  }

  /** Cross(a, b, p) is affine in p. */
  lemma CrossAffineInThird(a: Point, b: Point, p: Point)
    ensures Cross(a, b, p) == (a.x * (b.y - a.y) - a.y * (b.x - a.x)) + p.x * (a.y - b.y) + p.y * (b.x - a.x)
  {
  }

  /** One coordinate of an affine combination, multiplied by a coefficient. */
  lemma ScaledTerm(m: int, k: int, px: int, ax: int, qx: int, g: int)
    requires m * px == (m - k) * ax + k * qx
    ensures m * (px * g) == (m - k) * (ax * g) + k * (qx * g)
  {
    calc {
      m * (px * g);
    ==
      (m * px) * g;
    ==
      ((m - k) * ax + k * qx) * g;
    ==
      (m - k) * (ax * g) + k * (qx * g);
    }
  }

  /** If m * x == w * d with m > 0 and w >= 0, then x is zero or shares d's sign. */
  lemma SignOfScaled(x: int, w: int, m: int, d: int)
    requires 0 < m && 0 <= w
    requires m * x == w * d
    ensures SameSignOrZero(x, d)
  {
  }
}

=== FILE: samples.dfy ===
/** Concrete runs of the triangulator on small polygons: a sample polygon of the
    demo program, a square listed in each of the two windings, a list with a
    vertex on the edge of a convex corner's triangle, and an L-shaped hexagon
    listed counter-clockwise. */
module Samples {
  import opened Geometry
  import opened EarClipping

  /** The demo's triangle sample, converted from image coordinates in a
      600-pixel-high image. */
  function SampleTriangle(): seq<Point>
  {
    [NewVertex(377, 249, 600), NewVertex(411, 197, 600), NewVertex(436, 249, 600)]
  }

  /** The demo's triangle sample yields exactly one triangle, starting at its
      last vertex, and the run finishes. */
  lemma SampleTriangleIsOneEar()
    ensures Triangulation(SampleTriangle()).triangles
         == [Triangle(Point(436, 351), Point(377, 351), Point(411, 403))]
    ensures !Triangulation(SampleTriangle()).stuck
  {
    var p := SampleTriangle();
    ThreeVertices(p[0], p[1], p[2]);
    assert p == [p[0], p[1], p[2]];
  }

  /** A 4 x 4 square listed clockwise in the model's upward-y frame. */
  function ClockwiseSquare(): seq<Point>
  {
    [Point(0, 0), Point(0, 4), Point(4, 4), Point(4, 0)]
  }

  /** A vertex of a four-vertex list is an ear when its corner is convex and
      the one vertex `q` that is not a corner of its triangle `t` fails the
      side test for `t`. */
  lemma QuadrilateralEar(polygon: seq<Point>, i: nat, opposite: nat, t: Triangle, q: Point)
    requires |polygon| == 4 && i < 4 && opposite < 4 && IsOtherIndex(4, i, opposite)
    requires EarTriangle(polygon, i) == t && polygon[opposite] == q
    requires IsConvex(t.prev, t.curr, t.next) && !InsideBySides(q, t.prev, t.curr, t.next)
    ensures IsEar(polygon, i)
  {
    TwiceAreaIsCross(t.prev, t.curr, t.next);
    NeighboursAreInverse(4, i);
    forall j | 0 <= j < |polygon| && IsOtherIndex(|polygon|, i, j)
      ensures !PointInTriangle(polygon[j], t.prev, t.curr, t.next)
    {
      assert j == opposite;
      PointInTriangleBySides(polygon[j], t.prev, t.curr, t.next);
    }
  }

  /** A convex corner is not an ear when some other vertex `q` passes the side
      test for its triangle `t`. */
  lemma OtherVertexInside(polygon: seq<Point>, i: nat, j: nat, t: Triangle, q: Point)
    requires i < |polygon| && j < |polygon| && IsOtherIndex(|polygon|, i, j)
    requires EarTriangle(polygon, i) == t && polygon[j] == q
    requires IsConvex(t.prev, t.curr, t.next) && InsideBySides(q, t.prev, t.curr, t.next)
    ensures !IsEar(polygon, i)
  {
    TwiceAreaIsCross(t.prev, t.curr, t.next);
    PointInTriangleBySides(q, t.prev, t.curr, t.next);
  }

  /** Index 0 of the clockwise square is an ear: the corner there is convex
      and the opposite vertex (4, 4) lies beyond the diagonal from (4, 0) to
      (0, 4). */
  lemma ClockwiseSquareCornerIsEar()
    ensures EarTriangle(ClockwiseSquare(), 0) == Triangle(Point(4, 0), Point(0, 0), Point(0, 4))
    ensures IsEar(ClockwiseSquare(), 0)
  {
    var p := ClockwiseSquare();
    var t := Triangle(Point(4, 0), Point(0, 0), Point(0, 4));
    assert EarTriangle(p, 0) == t && p[2] == Point(4, 4);
    assert IsConvex(Point(4, 0), Point(0, 0), Point(0, 4))
        && !InsideBySides(Point(4, 4), Point(4, 0), Point(0, 0), Point(0, 4));
    QuadrilateralEar(p, 0, 2, t, Point(4, 4));
  }

  /** The first pass over the clockwise square clips its first vertex. */
  lemma ClockwiseSquareFirstEar()
    ensures FirstEar(ClockwiseSquare()) == Some(0)
    ensures EarTriangle(ClockwiseSquare(), 0) == Triangle(Point(4, 0), Point(0, 0), Point(0, 4))
  {
    ClockwiseSquareCornerIsEar();
  }

  /** The clockwise square is cut into two triangles along the diagonal from
      (4, 0) to (0, 4). */
  lemma ClockwiseSquareHasTwoTriangles()
    ensures Triangulation(ClockwiseSquare()).triangles
         == [Triangle(Point(4, 0), Point(0, 0), Point(0, 4)),
             Triangle(Point(4, 0), Point(0, 4), Point(4, 4))]
    ensures !Triangulation(ClockwiseSquare()).stuck
  {
    var p := ClockwiseSquare();
    ClockwiseSquareFirstEar();
    ClipStep(p, 0);
    var rest := RemoveAt(p, 0);
    assert rest == [Point(0, 4), Point(4, 4), Point(4, 0)];
    assert IsConvex(rest[2], rest[0], rest[1]);
    ThreeVertices(rest[0], rest[1], rest[2]);
  }

  /** The same square listed counter-clockwise has no convex corner under the
      triangulator's convention, so the run gives up at once with no triangle. */
  lemma CounterClockwiseSquareIsStuck()
    ensures Triangulation([Point(0, 0), Point(4, 0), Point(4, 4), Point(0, 4)]).triangles == []
    ensures Triangulation([Point(0, 0), Point(4, 0), Point(4, 4), Point(0, 4)]).stuck
  {
    var p := [Point(0, 0), Point(4, 0), Point(4, 4), Point(0, 4)];
    assert EarTriangle(p, 0) == Triangle(Point(0, 4), Point(0, 0), Point(4, 0));
    assert EarTriangle(p, 1) == Triangle(Point(0, 0), Point(4, 0), Point(4, 4));
    assert EarTriangle(p, 2) == Triangle(Point(4, 0), Point(4, 4), Point(0, 4));
    assert EarTriangle(p, 3) == Triangle(Point(4, 4), Point(0, 4), Point(0, 0));
    assert !IsConvex(Point(0, 4), Point(0, 0), Point(4, 0));
    assert !IsConvex(Point(0, 0), Point(4, 0), Point(4, 4));
    assert !IsConvex(Point(4, 0), Point(4, 4), Point(0, 4));
    assert !IsConvex(Point(4, 4), Point(0, 4), Point(0, 0));
    forall k | 0 <= k < |p|
      ensures !IsEar(p, k)
    {
    }
    assert FirstEar(p).None?;
    RunEnds(p);
  }

  /** A list with a vertex on an ear candidate's edge: (2, 1) lies on the edge
      from (2, 3) to (2, 0) of the corner at index 0. */
  function EdgeVertexList(): seq<Point>
  {
    [Point(2, 3), Point(2, 0), Point(2, 1), Point(0, 2)]
  }

  /** The triangle of the corner at index 0, and the one vertex outside it. */
  lemma EdgeVertexFirstCorner()
    ensures EarTriangle(EdgeVertexList(), 0) == Triangle(Point(0, 2), Point(2, 3), Point(2, 0))
    ensures IsOtherIndex(4, 0, 2) && EdgeVertexList()[2] == Point(2, 1)
  {
    assert PrevIndex(4, 0) == 3 && NextIndex(4, 0) == 1;
  }

  /** The triangle of the corner at index 3, and the one vertex outside it. */
  lemma EdgeVertexLastCorner()
    ensures EarTriangle(EdgeVertexList(), 3) == Triangle(Point(2, 1), Point(0, 2), Point(2, 3))
    ensures IsOtherIndex(4, 3, 1) && EdgeVertexList()[1] == Point(2, 0)
  {
    assert PrevIndex(4, 3) == 2 && NextIndex(4, 3) == 0;
  }

  /** The corner at index 0 is convex, and (2, 1) passes the side test for its
      triangle. */
  lemma EdgeVertexFirstCornerSides()
    ensures IsConvex(Point(0, 2), Point(2, 3), Point(2, 0))
    ensures InsideBySides(Point(2, 1), Point(0, 2), Point(2, 3), Point(2, 0))
  {
  }

  /** The corner at index 3 is convex, and (2, 0) fails the side test for its
      triangle. */
  lemma EdgeVertexLastCornerSides()
    ensures IsConvex(Point(2, 1), Point(0, 2), Point(2, 3))
    ensures !InsideBySides(Point(2, 0), Point(2, 1), Point(0, 2), Point(2, 3))
  {
  }

  /** Index 0 of the list is a convex corner, yet not an ear: the vertex
      (2, 1) on its curr-next edge counts as inside its triangle. */
  lemma EdgeVertexInsideCorner()
    ensures !IsEar(EdgeVertexList(), 0)
  {
    EdgeVertexFirstCorner();
    EdgeVertexFirstCornerSides();
    OtherVertexInside(EdgeVertexList(), 0, 2, Triangle(Point(0, 2), Point(2, 3), Point(2, 0)), Point(2, 1));
  }

  /** The corners at indices 1 and 2 are not convex, so neither is an ear. */
  lemma EdgeVertexMiddleCorners()
    ensures !IsEar(EdgeVertexList(), 1) && !IsEar(EdgeVertexList(), 2)
  {
    var p := EdgeVertexList();
    assert EarTriangle(p, 1) == Triangle(Point(2, 3), Point(2, 0), Point(2, 1));
    assert EarTriangle(p, 2) == Triangle(Point(2, 0), Point(2, 1), Point(0, 2));
    assert !IsConvex(Point(2, 3), Point(2, 0), Point(2, 1));
    assert !IsConvex(Point(2, 0), Point(2, 1), Point(0, 2));
  }

  /** Index 3 of the list is an ear: its only other vertex, (2, 0), lies
      below its triangle. */
  lemma EdgeVertexListLastIsEar()
    ensures IsEar(EdgeVertexList(), 3)
  {
    EdgeVertexLastCorner();
    EdgeVertexLastCornerSides();
    QuadrilateralEar(EdgeVertexList(), 3, 1, Triangle(Point(2, 1), Point(0, 2), Point(2, 3)), Point(2, 0));
  }

  /** On a four-vertex list whose first three corners are not ears and whose
      last is, the first pass picks the last corner. */
  lemma FirstEarOfFourIsLast(p: seq<Point>)
    requires |p| == 4 && !IsEar(p, 0) && !IsEar(p, 1) && !IsEar(p, 2) && IsEar(p, 3)
    ensures FirstEar(p) == Some(3)
  {
    assert FirstEarFrom(p, 3) == Some(3);
    assert FirstEarFrom(p, 2) == Some(3);
    assert FirstEarFrom(p, 1) == Some(3);
  }

  /** Because the vertex on the edge blocks index 0 and the corners at 1 and 2
      are not convex, the first pass clips index 3. */
  lemma EdgeVertexBlocksEar()
    ensures FirstEar(EdgeVertexList()) == Some(3)
  {
    EdgeVertexInsideCorner();
    EdgeVertexMiddleCorners();
    EdgeVertexListLastIsEar();
    FirstEarOfFourIsLast(EdgeVertexList());
  }

  /** An L-shaped hexagon listed counter-clockwise in the model's upward-y
      frame. Its one reflex corner, at index 3, turns clockwise. */
  function LHexagon(): seq<Point>
  {
    [Point(0, 0), Point(2, 0), Point(2, 1), Point(1, 1), Point(1, 2), Point(0, 2)]
  }

  /** The first three corners of the hexagon turn counter-clockwise, so none
      of them is an ear. */
  lemma LHexagonFirstCorners()
    ensures !IsEar(LHexagon(), 0) && !IsEar(LHexagon(), 1) && !IsEar(LHexagon(), 2)
  {
    var p := LHexagon();
    assert EarTriangle(p, 0) == Triangle(Point(0, 2), Point(0, 0), Point(2, 0));
    assert EarTriangle(p, 1) == Triangle(Point(0, 0), Point(2, 0), Point(2, 1));
    assert EarTriangle(p, 2) == Triangle(Point(2, 0), Point(2, 1), Point(1, 1));
    assert !IsConvex(Point(0, 2), Point(0, 0), Point(2, 0));
    assert !IsConvex(Point(0, 0), Point(2, 0), Point(2, 1));
    assert !IsConvex(Point(2, 0), Point(2, 1), Point(1, 1));
  }

  /** The triangle of the reflex corner at index 3, and the three vertices
      that are not its corners. */
  lemma LHexagonNotchCorner()
    ensures EarTriangle(LHexagon(), 3) == Triangle(Point(2, 1), Point(1, 1), Point(1, 2))
    ensures forall j :: 0 <= j < 6 && IsOtherIndex(6, 3, j) ==> j == 0 || j == 1 || j == 5
    ensures LHexagon()[0] == Point(0, 0) && LHexagon()[1] == Point(2, 0) && LHexagon()[5] == Point(0, 2)
  {
    assert PrevIndex(6, 3) == 2 && NextIndex(6, 3) == 4;
  }

  /** The reflex corner counts as convex, and none of (0, 0), (2, 0) and
      (0, 2) passes the side test for its triangle. */
  lemma LHexagonNotchSides()
    ensures IsConvex(Point(2, 1), Point(1, 1), Point(1, 2))
    ensures !InsideBySides(Point(0, 0), Point(2, 1), Point(1, 1), Point(1, 2))
    ensures !InsideBySides(Point(2, 0), Point(2, 1), Point(1, 1), Point(1, 2))
    ensures !InsideBySides(Point(0, 2), Point(2, 1), Point(1, 1), Point(1, 2))
  {
  }

  /** The reflex corner at index 3 is an ear under the triangulator's test. */
  lemma LHexagonNotchIsEar()
    ensures IsEar(LHexagon(), 3)
  {
    var p := LHexagon();
    var t := Triangle(Point(2, 1), Point(1, 1), Point(1, 2));
    LHexagonNotchCorner();
    LHexagonNotchSides();
    forall j | 0 <= j < |p| && IsOtherIndex(|p|, 3, j)
      ensures !InsideBySides(p[j], t.prev, t.curr, t.next)
    {
    }
    IsEarBySides(p, 3);
  }

  /** The first pass over the hexagon clips the reflex corner. */
  lemma LHexagonFirstEar()
    ensures FirstEar(LHexagon()) == Some(3)
  {
    var p := LHexagon();
    LHexagonFirstCorners();
    LHexagonNotchIsEar();
    assert FirstEarFrom(p, 3) == Some(3);
    assert FirstEarFrom(p, 2) == Some(3);
    assert FirstEarFrom(p, 1) == Some(3);
  }

  /** The pentagon left after the notch is clipped. */
  function LPentagon(): seq<Point>
  {
    [Point(0, 0), Point(2, 0), Point(2, 1), Point(1, 2), Point(0, 2)]
  }

  /** Removing the reflex vertex from the hexagon leaves the pentagon. */
  lemma LHexagonWithoutNotch()
    ensures RemoveAt(LHexagon(), 3) == LPentagon()
  {
  }

  /** The triangles of the pentagon's five corners. */
  lemma LPentagonCorners()
    ensures EarTriangle(LPentagon(), 0) == Triangle(Point(0, 2), Point(0, 0), Point(2, 0))
    ensures EarTriangle(LPentagon(), 1) == Triangle(Point(0, 0), Point(2, 0), Point(2, 1))
    ensures EarTriangle(LPentagon(), 2) == Triangle(Point(2, 0), Point(2, 1), Point(1, 2))
    ensures EarTriangle(LPentagon(), 3) == Triangle(Point(2, 1), Point(1, 2), Point(0, 2))
    ensures EarTriangle(LPentagon(), 4) == Triangle(Point(1, 2), Point(0, 2), Point(0, 0))
  {
    assert PrevIndex(5, 0) == 4 && NextIndex(5, 4) == 0;
  }

  /** None of the pentagon's corners turns clockwise. */
  lemma LPentagonTurns()
    ensures !IsConvex(Point(0, 2), Point(0, 0), Point(2, 0))
    ensures !IsConvex(Point(0, 0), Point(2, 0), Point(2, 1))
    ensures !IsConvex(Point(2, 0), Point(2, 1), Point(1, 2))
    ensures !IsConvex(Point(2, 1), Point(1, 2), Point(0, 2))
    ensures !IsConvex(Point(1, 2), Point(0, 2), Point(0, 0))
  {
  }

  /** A list with three or more vertices and no convex corner has no ear. */
  lemma NoConvexCornerNoEar(p: seq<Point>)
    requires forall k :: 0 <= k < |p| ==> !IsConvex(EarTriangle(p, k).prev, EarTriangle(p, k).curr, EarTriangle(p, k).next)
    ensures FirstEar(p).None?
  {
    forall k | 0 <= k < |p|
      ensures !IsEar(p, k)
    {
    }
  }

  /** Every corner of the pentagon turns counter-clockwise, so it has no ear. */
  lemma LPentagonHasNoEar()
    ensures FirstEar(LPentagon()).None?
  {
    var p := LPentagon();
    LPentagonCorners();
    LPentagonTurns();
    forall k | 0 <= k < |p|
      ensures !IsConvex(EarTriangle(p, k).prev, EarTriangle(p, k).curr, EarTriangle(p, k).next)
    {
      assert k == 0 || k == 1 || k == 2 || k == 3 || k == 4;
    }
    NoConvexCornerNoEar(p);
  }

  /** The counter-clockwise L-hexagon: the run clips its reflex corner, a
      triangle that fills the notch outside the polygon, and then gives up on
      the pentagon that is left. */
  lemma LHexagonClipsNotchThenGivesUp()
    ensures Triangulation(LHexagon()).triangles == [Triangle(Point(2, 1), Point(1, 1), Point(1, 2))]
    ensures Triangulation(LHexagon()).remaining == LPentagon()
    ensures Triangulation(LHexagon()).stuck
  {
    var p := LHexagon();
    LHexagonFirstEar();
    LHexagonNotchCorner();
    ClipStep(p, 3);
    LHexagonWithoutNotch();
    LPentagonHasNoEar();
    RunEnds(LPentagon());
  }
}
